=== FILE: README.md ===
# WhatsApp polling bot: a verified model of its decision logic

The bot links a personal WhatsApp number to a Twilio Conversations service. It
normalises two phone numbers into `whatsapp:` addresses. It reuses the conversation
labelled "Friendly Conversation", or creates one. It makes sure the user's number takes
part in that conversation. Then it polls the conversation and answers each new message
from the user with one fixed reply. The code exists twice: as functions with a `main`
(`twillioexplanation.py`) and as a module-level script (`app.py`).

This project models that logic in Dafny. The remote service becomes in-memory state,
in module `Conversations`:

- a `Service` holds the sequence of its conversations;
- a `Conversation` holds a sequence of participants and a sequence of messages;
- each remote `list()` call reads one of these sequences whole;
- each remote `create` call appends one element.

The modules are:

- `Address`: `format_number`. `str.replace` is written out as a left-to-right scan that
  deletes every non-overlapping occurrence of `"whatsapp:"` (`RemoveAll`). `strip()` is
  written out over ASCII whitespace (`Strip`).
- `Provisioning`: `get_or_create_conversation` and `ensure_participant`. The `next(...)`
  and `any(...)` lookups are the pure `FirstMatch` and `HasParticipant`. The participant
  list the operation leaves is the function `WithParticipant`.
- `Polling`: one tick of `poll_messages` as the pure function `Step`, over the cursor
  `last_sid` and the message list. `Run` is a bounded sequence of ticks. The class
  `Poller` holds the cursor; its methods `Tick` and `Poll` are proved equal to `Step`
  and `Run`.
- `Bot`: the wiring in `main`, and the fact that the wiring relies on: the user number is
  a normalised address, so it is never the bot's own author `"system"`.
- `App`: the inline steps of `app.py`, each proved to compute what the shared
  specifications above say.

`format_number` follows the code, not its docstring. The docstring
(twillioexplanation.py:24-26) says the function removes an existing `whatsapp:` prefix
and adds it back cleanly. The code deletes every occurrence of the token, wherever it is. So normalisation is idempotent exactly
when the stripped remainder contains no further token (`FormatNumberIdempotentIff`).
`"whatswhatsapp:app:1"` is a counterexample (`FormatNumberNotIdempotent`). For real
phone numbers, with or without a prefix or surrounding spaces, the result is always the
single token followed by the bare number (`FormatNumberCanonical`).

## Model

| member | source | states |
|---|---|---|
| `Address.FormatNumber` | twillioexplanation.py:23-29 | the normalised number always begins with `whatsapp:` |
| `Address.RemoveAll` | twillioexplanation.py:28 | `replace("whatsapp:", "")` never lengthens the number; the lemmas below say what it deletes |
| `Address.RemoveAllNoToken` | twillioexplanation.py:28 | a string that contains no token is left unchanged by the replace |
| `Address.RemoveAllFirst` | twillioexplanation.py:28 | for any input: the text before the leftmost token is kept, that token is deleted, and the scan resumes right after it |
| `Address.RemoveAllShrinks` | twillioexplanation.py:28 | a string that contains the token anywhere gets strictly shorter: at least one occurrence is deleted |
| `Address.RemoveAllPassesLeft` | twillioexplanation.py:28 | characters before the first possible token start (no `w`) are copied unchanged |
| `Address.RemoveAllRepeat` | twillioexplanation.py:28 | any number of leading tokens are all deleted |
| `Address.Strip` | twillioexplanation.py:28 | `strip()` never lengthens and leaves no whitespace at either end |
| `Address.StripSurroundingSpace` | twillioexplanation.py:28 | `strip()` removes exactly the surrounding whitespace of a stripped core |
| `Address.StripStripped` | twillioexplanation.py:28 | `strip()` leaves an already stripped string unchanged |
| `Address.FormatNumberCanonical` | twillioexplanation.py:23-29 | whitespace, then k ≥ 0 tokens, then a bare number, then whitespace, normalises to exactly `whatsapp:` + the bare number |
| `Address.FormatNumberBare` | twillioexplanation.py:28-29 | an input with no token and no surrounding whitespace gets exactly `whatsapp:` prepended |
| `Address.FormatNumberIdempotentIff` | twillioexplanation.py:28-29 | `format_number(format_number(x)) == format_number(x)` holds if and only if the stripped remainder of x contains no token |
| `Address.RemoveAllJoins` | twillioexplanation.py:28 | deleting the inner token of `whatswhatsapp:app:1` leaves `whatsapp:1`, a fresh token |
| `Address.FormatNumberNotIdempotent` | twillioexplanation.py:28-29 | `whatswhatsapp:app:1` normalises to `whatsapp:whatsapp:1`, and that normalises to `whatsapp:1` |
| `Conversations.Service.CreateConversation` | twillioexplanation.py:68 | appends exactly one fresh conversation, with the given label and no participants or messages, and returns it |
| `Conversations.Conversation.CreateParticipant` | twillioexplanation.py:84-87 | appends exactly one participant bound to the address through the proxy; messages are unchanged |
| `Conversations.Conversation.CreateMessage` | twillioexplanation.py:114 | appends exactly one message with the given author and body; participants are unchanged |
| `Conversations.Conversation.Receive` | twillioexplanation.py:104 | messages the user's phone sends between two polls are appended to the list the next `list()` returns; participants are unchanged |
| `Provisioning.FirstMatch` | twillioexplanation.py:62-63 | returns the index of the first conversation labelled with the name, and none before it has that label; returns None if and only if no conversation has it |
| `Provisioning.HasParticipant` | twillioexplanation.py:79 | the left-to-right `any` scan is true if and only if some participant is bound to the address |
| `Provisioning.WithParticipant` | twillioexplanation.py:78-90 | afterwards a participant with the address exists; the list grows by one exactly when none existed; existing participants are kept in order; the new one has the address and the proxy |
| `Provisioning.EnsureParticipantTwice` | twillioexplanation.py:78-90 | ensuring the same address twice, with any proxies, equals ensuring it once, so at most one participant is created |
| `Provisioning.GetOrCreateConversation` | twillioexplanation.py:57-71 | with a match, returns the first match and issues no create; otherwise appends exactly one fresh, empty conversation labelled "Friendly Conversation" and returns it; no existing conversation is modified |
| `Provisioning.EnsureParticipant` | twillioexplanation.py:73-90 | the participants become `WithParticipant` of the old list (create if and only if absent); messages are unchanged |
| `Polling.Answers` | twillioexplanation.py:106-108 | with a normalised user address, the guard never holds for a newest message that is one of the bot's own replies |
| `Polling.Step` | twillioexplanation.py:104-115 | an empty list changes nothing; the state changes if and only if the newest message has a sid other than the cursor and the user wrote it; a change appends exactly one `system` reply and moves the cursor to that sid; the cursor never moves otherwise |
| `Polling.UserIsNotSystem` | twillioexplanation.py:108 | an address that begins with `whatsapp:` is never the author `system` |
| `Polling.SameListTwiceAnswersOnce` | twillioexplanation.py:107-115 | a second tick over the same list, with the cursor the first tick left, does nothing |
| `Polling.NoAnswerToOwnReply` | twillioexplanation.py:108-114 | when the newest message is by `system` and the user address is normalised, the tick does nothing |
| `Polling.IdleAfterAnswer` | twillioexplanation.py:108-115 | the tick right after an answer is idle |
| `Polling.OnlyNewestMatters` | twillioexplanation.py:106-108 | whether a tick answers depends only on the newest message and the cursor |
| `Polling.BuriedMessageUnanswered` | twillioexplanation.py:107-108 | if the newest message is not the user's, nothing is answered, even with unanswered user messages before it |
| `Polling.Run` | twillioexplanation.py:103-117 | over any bounded run the message list only grows: the starting list is a prefix of the final one |
| `Polling.Answered` | twillioexplanation.py:103-115 | a run answers at most once per tick |
| `Polling.RunAnsweredPositions` | twillioexplanation.py:101-117 | over any bounded run the answered positions strictly increase, so no message is answered twice; none lies before the starting list's newest message |
| `Polling.RunAnswersUserWithReply` | twillioexplanation.py:103-117 | with the user's messages arriving only between ticks (see "Left out"), every answered position holds a message by the user, directly followed by a bot reply |
| `Polling.RunLength` | twillioexplanation.py:103-117 | the final list is as long as the starting list plus every message the user sent plus one reply per answered position: a run appends at most one reply per tick, and `Answered` counts every reply |
| `Polling.RunKeepsArrivals` | twillioexplanation.py:103-117 | every message the user sends during the run is in the final list |
| `Polling.StepWithLate` | twillioexplanation.py:104-115 | a tick whose reply is created after messages that arrived since its `list()`: the decision and the new cursor are those of `Step`; the reply lands after the late messages; with no late message it is `Step` |
| `Polling.LateMessageLost` | twillioexplanation.py:104-115 | a user message that arrives between a tick's `list()` and its reply ends up just before the reply, and the next tick is idle, so it is not answered |
| `Polling.AnsweredSids` | twillioexplanation.py:107-115 | one answered sid per answered position |
| `Polling.RunAnsweredSidsAt` | twillioexplanation.py:107-115 | the answered sids are the sids of the messages at the answered positions of the final list |
| `Polling.RunAnswersNewSids` | twillioexplanation.py:101-115 | the first answered sid is not the starting cursor; two consecutive answers never have the same sid; the cursor the run leaves is the sid answered last, or the starting cursor if nothing was answered |
| `Polling.ScenarioAnswerOnce` | twillioexplanation.py:101-117 | empty conversation; user message `m1` arrives: one reply, cursor `m1`; the next tick appends nothing |
| `Polling.Poller.constructor` | twillioexplanation.py:95-101 | the loop starts with the cursor at None |
| `Polling.Poller.Tick` | twillioexplanation.py:104-115 | one loop body changes the cursor and messages exactly as `Step` does; participants are unchanged |
| `Polling.Poller.Poll` | twillioexplanation.py:103-117 | a bounded number of loop passes, with the user's messages arriving between them, ends in the state `Run` gives |
| `Bot.Start` | twillioexplanation.py:122-140 | the poller watches `format_number(phone)` with cursor None. Its conversation is the first "Friendly Conversation" (no create) or exactly one new one; no other conversation changes. That conversation has a participant bound to the normalised phone; a participant it creates uses the normalised provider number as proxy |
| `Bot.NeverAnswersItself` | twillioexplanation.py:125-140 | polling with the normalised user number never answers a newest message written by the bot |
| `App.NormalizeNumbers` | app.py:17-20 | after the four reassignments, each number equals `format_number` of its raw value and begins with `whatsapp:` |
| `App.Provision` | app.py:36-58 | the inline find-or-create and participant check compute what `FirstMatch` and `WithParticipant` say: reuse the first match with no create, otherwise exactly one new conversation; add the participant with `PHONE_NUMBER` and proxy `MS_NUMBER` if and only if no participant has that address; no other conversation changes |
| `App.LoopBody` | app.py:75-87 | one pass over the global `last_sid` answers and advances it exactly as `Step` does; `last_sid` changes only on a reply |

## Left out

- Environment loading (`load_dotenv`, `os.getenv`) is process I/O. The raw numbers are parameters. A missing variable (`None`, on which `.replace` would raise) is outside the model; every raw number is a string.
- Construction of the Twilio client and of the service handle are calls into a foreign library.
- `send_initial_message` and the module-level send in `app.py` are one network call each, with no decision logic.
- `print` output and `time.sleep(1)` are left out.
- The polling loop never ends. `Poller.Poll` models any finite prefix of it. The user's messages that arrive between polls are a parameter.
- `Polling.Run`, `Polling.Poller.Poll` and the lemmas about runs assume no user message arrives while a tick is between its `list()` and its reply's `create()`. In the source such a message lands before the reply and is not answered until the user writes again. `StepWithLate` and `LateMessageLost` model that one interleaving for a single tick.
- The sid the provider assigns to each reply is a parameter (`replySid`).
- The Flask liveness route and its background thread share no state with the bot.
- `strip()` is modelled on ASCII whitespace only (tab, line feed, vertical tab, form feed, carriage return, 0x1C-0x1F, space). Python also strips non-ASCII Unicode whitespace.
- Participants without a messaging binding (on which `p.messaging_binding['address']` would raise) are outside the model. Every participant carries a binding.
- The list calls are assumed complete. Pagination is not modelled.
- Network errors, which end the process, are not modelled. Every remote call succeeds.

=== FILE: address.dfy ===
/**
 * Normalisation of WhatsApp addresses: `format_number`.
 *
 * The source applies Python's `number.replace("whatsapp:", "")`, which deletes EVERY
 * non-overlapping occurrence of the token in one left-to-right scan (not only a leading
 * one), then `.strip()`, then puts exactly one "whatsapp:" in front.
 */
module Address {

  /** The channel token every provider address carries. */
  const Prefix: string := "whatsapp:"

  /** Python's `str.isspace` restricted to ASCII: tab, line feed, vertical tab, form feed,
      carriage return, the four information separators (0x1C-0x1F) and space. */
  predicate IsSpace(c: char)
  {
    var n := c as int;
    n == 32 || 9 <= n <= 13 || 28 <= n <= 31
  }

  predicate AllSpace(s: string)
  {
    forall i :: 0 <= i < |s| ==> IsSpace(s[i])
  }

  /** No whitespace at either end: what `.strip()` leaves behind. */
  predicate IsStripped(s: string)
  {
    |s| == 0 || (!IsSpace(s[0]) && !IsSpace(s[|s| - 1]))
  }

  /** The token occurs in `s` starting at position `i`. */
  predicate TokenAt(s: string, i: nat)
  {
    i + |Prefix| <= |s| && s[i..i + |Prefix|] == Prefix
  }

  predicate NoToken(s: string)
  {
    forall i: nat :: i <= |s| ==> !TokenAt(s, i)
  }

  /** `s` begins with the token. */
  predicate StartsWithToken(s: string)
  {
    TokenAt(s, 0)
  }

  /** `s.replace("whatsapp:", "")`: scan from the left, dropping each occurrence of the
      token and resuming after it. */
  function RemoveAll(s: string): (r: string)
    ensures |r| <= |s|
    decreases |s|
  {
    if |s| < |Prefix| then s
    else if StartsWithToken(s) then RemoveAll(s[|Prefix|..])
    else [s[0]] + RemoveAll(s[1..])
  }

  function TrimStart(s: string): (r: string)
    decreases |s|
  {
    if |s| > 0 && IsSpace(s[0]) then TrimStart(s[1..]) else s
  }

  function TrimEnd(s: string): (r: string)
    decreases |s|
  {
    if |s| > 0 && IsSpace(s[|s| - 1]) then TrimEnd(s[..|s| - 1]) else s
  }

  /** `s.strip()` with no argument: never longer than `s`, and no whitespace is left at
      either end. */
  function Strip(s: string): (r: string)
    ensures |r| <= |s|
    ensures IsStripped(r)
  {
    TrimStartIsSuffix(s);
    TrimEndIsPrefix(TrimStart(s));
    TrimEnd(TrimStart(s))
  }

  /** `format_number(number)`: the normalised provider address. */
  function FormatNumber(number: string): (r: string)
    ensures StartsWithToken(r)
  {
    Prefix + Strip(RemoveAll(number))
  }

  /** `k` copies of the token, one after the other. */
  function Repeat(k: nat): (r: string)
  {
    if k == 0 then [] else Prefix + Repeat(k - 1)
  }

  // ---------------------------------------------------------------------------------------
  // Strip

  lemma {:induction false} TrimStartIsSuffix(s: string)
    ensures |TrimStart(s)| <= |s| && TrimStart(s) == s[|s| - |TrimStart(s)|..]
    ensures |TrimStart(s)| == 0 || !IsSpace(TrimStart(s)[0])
    decreases |s|
  {
    if |s| > 0 && IsSpace(s[0]) {
      TrimStartIsSuffix(s[1..]);
    }
  }

  lemma {:induction false} TrimEndIsPrefix(s: string)
    ensures |TrimEnd(s)| <= |s| && TrimEnd(s) == s[..|TrimEnd(s)|]
    ensures |TrimEnd(s)| == 0 || !IsSpace(TrimEnd(s)[|TrimEnd(s)| - 1])
    decreases |s|
  {
    if |s| > 0 && IsSpace(s[|s| - 1]) {
      TrimEndIsPrefix(s[..|s| - 1]);
    }
  }

  lemma {:induction false} TrimStartSpaces(w: string, y: string)
    requires AllSpace(w)
    requires |y| == 0 || !IsSpace(y[0])
    ensures TrimStart(w + y) == y
    decreases |w|
  {
    if |w| > 0 {
      assert (w + y)[1..] == w[1..] + y;
      TrimStartSpaces(w[1..], y);
    } else {
      assert w + y == y;
    }
  }

  lemma {:induction false} TrimEndSpaces(y: string, w: string)
    requires AllSpace(w)
    requires |y| == 0 || !IsSpace(y[|y| - 1])
    ensures TrimEnd(y + w) == y
    decreases |w|
  {
    if |w| > 0 {
      assert (y + w)[..|y + w| - 1] == y + w[..|w| - 1];
      TrimEndSpaces(y, w[..|w| - 1]);
    } else {
      assert y + w == y;
    }
  }

  /** `.strip()` removes exactly the surrounding whitespace of a stripped core. */
  lemma StripSurroundingSpace(w1: string, y: string, w2: string)
    requires AllSpace(w1) && AllSpace(w2) && IsStripped(y)
    ensures Strip(w1 + y + w2) == y
  {
    assert w1 + y + w2 == w1 + (y + w2);
    if |y| == 0 {
      assert y + w2 == w2;
      assert AllSpace(w1 + w2);
      TrimStartSpaces(w1 + w2, []);
      assert w1 + w2 + [] == w1 + w2;
    } else {
      TrimStartSpaces(w1, y + w2);
      TrimEndSpaces(y, w2);
    }
  }

  /** `.strip()` leaves an already stripped string alone. */
  lemma StripStripped(y: string)
    requires IsStripped(y)
    ensures Strip(y) == y
  {
    StripSurroundingSpace([], y, []);
    assert [] + y + [] == y;
  }

  // ---------------------------------------------------------------------------------------
  // replace("whatsapp:", "")

  lemma TokenAtTail(s: string, i: nat)
    requires |s| > 0
    ensures TokenAt(s[1..], i) <==> TokenAt(s, i + 1)
  {
    if i + 1 + |Prefix| <= |s| {
      assert s[1..][i..i + |Prefix|] == s[i + 1..i + 1 + |Prefix|];
    }
  }

  /** Deleting the token from a string that does not contain it changes nothing. */
  lemma {:induction false} RemoveAllNoToken(s: string)
    requires NoToken(s)
    ensures RemoveAll(s) == s
    decreases |s|
  {
    if |s| >= |Prefix| {
      assert !TokenAt(s, 0);
      forall i: nat | i <= |s[1..]| ensures !TokenAt(s[1..], i) {
        TokenAtTail(s, i);
      }
      RemoveAllNoToken(s[1..]);
      assert [s[0]] + s[1..] == s;
    }
  }

  /** The rule of `str.replace` in general: the text before the leftmost occurrence is kept,
      that occurrence is deleted, and the scan resumes right after it. */
  lemma {:induction false} RemoveAllFirst(s: string, i: nat)
    requires TokenAt(s, i)
    requires forall j: nat :: j < i ==> !TokenAt(s, j)
    ensures RemoveAll(s) == s[..i] + RemoveAll(s[i + |Prefix|..])
    decreases i
  {
    if i > 0 {
      assert !TokenAt(s, 0);
      TokenAtTail(s, i - 1);
      forall j: nat | j < i - 1
        ensures !TokenAt(s[1..], j)
      {
        TokenAtTail(s, j);
      }
      RemoveAllFirst(s[1..], i - 1);
      assert s[1..][i - 1 + |Prefix|..] == s[i + |Prefix|..];
      assert [s[0]] + s[1..][..i - 1] == s[..i];
    }
  }

  /** Where the token occurs, the left-to-right scan deletes at least one occurrence. */
  lemma {:induction false} RemoveAllShrinks(s: string, i: nat)
    requires TokenAt(s, i)
    ensures |RemoveAll(s)| < |s|
    decreases |s|
  {
    if !StartsWithToken(s) {
      assert i > 0;
      TokenAtTail(s, i - 1);
      RemoveAllShrinks(s[1..], i - 1);
    }
  }

  /** The token begins with 'w' and ends with ':', neither of them whitespace. */
  lemma TokenEnds(s: string, i: nat)
    requires TokenAt(s, i)
    ensures s[i] == 'w' && s[i + |Prefix| - 1] == ':'
  {
    assert s[i] == s[i..i + |Prefix|][0];
    assert s[i + |Prefix| - 1] == s[i..i + |Prefix|][|Prefix| - 1];
  }

  /** A token can only begin at a 'w'; the scan copies any stretch without one unchanged. */
  lemma {:induction false} RemoveAllPassesLeft(w: string, s: string)
    requires forall i :: 0 <= i < |w| ==> w[i] != 'w'
    ensures RemoveAll(w + s) == w + RemoveAll(s)
    decreases |w|
  {
    if |w| > 0 {
      var t := w + s;
      assert t[0] == w[0];
      if StartsWithToken(t) {
        TokenEnds(t, 0);
      }
      assert t[1..] == w[1..] + s;
      RemoveAllPassesLeft(w[1..], s);
      assert [w[0]] + (w[1..] + RemoveAll(s)) == w + RemoveAll(s);
    } else {
      assert w + s == s;
    }
  }

  /** Any number of leading tokens are all deleted. */
  lemma {:induction false} RemoveAllRepeat(k: nat, s: string)
    ensures RemoveAll(Repeat(k) + s) == RemoveAll(s)
  {
    if k > 0 {
      var t := Repeat(k) + s;
      assert t == Prefix + (Repeat(k - 1) + s);
      assert t[..|Prefix|] == Prefix;
      assert t[|Prefix|..] == Repeat(k - 1) + s;
      RemoveAllRepeat(k - 1, s);
    } else {
      assert Repeat(0) + s == s;
    }
  }

  /** Trailing whitespace cannot complete the token, whose last character is ':'. */
  lemma NoTokenSpacesRight(y: string, w: string)
    requires NoToken(y) && AllSpace(w)
    ensures NoToken(y + w)
  {
    var t := y + w;
    forall i: nat | i <= |t| ensures !TokenAt(t, i) {
      if i + |Prefix| <= |y| {
        assert t[i..i + |Prefix|] == y[i..i + |Prefix|];
        assert !TokenAt(y, i);
      } else if i + |Prefix| <= |t| {
        assert t[i + |Prefix| - 1] == w[i + |Prefix| - 1 - |y|];
        if TokenAt(t, i) {
          TokenEnds(t, i);
        }
      }
    }
  }

  // ---------------------------------------------------------------------------------------
  // format_number

  /** A number given raw, with one or more leading tokens, and with surrounding whitespace,
      always normalises to exactly one token followed by the bare number. */
  lemma FormatNumberCanonical(w1: string, k: nat, y: string, w2: string)
    requires AllSpace(w1) && AllSpace(w2)
    requires IsStripped(y) && NoToken(y)
    ensures FormatNumber(w1 + Repeat(k) + y + w2) == Prefix + y
  {
    assert w1 + Repeat(k) + y + w2 == w1 + (Repeat(k) + (y + w2));
    RemoveAllPassesLeft(w1, Repeat(k) + (y + w2));
    RemoveAllRepeat(k, y + w2);
    NoTokenSpacesRight(y, w2);
    RemoveAllNoToken(y + w2);
    assert w1 + (y + w2) == w1 + y + w2;
    StripSurroundingSpace(w1, y, w2);
  }

  /** A bare number without surrounding whitespace gains exactly the one token. */
  lemma FormatNumberBare(y: string)
    requires IsStripped(y) && NoToken(y)
    ensures FormatNumber(y) == Prefix + y
  {
    FormatNumberCanonical([], 0, y, []);
    assert [] + Repeat(0) + y + [] == y;
  }

  /** `format_number` is idempotent on `x` exactly when what is left of `x` after deleting
      the tokens and stripping contains no further token. */
  lemma FormatNumberIdempotentIff(x: string)
    ensures FormatNumber(FormatNumber(x)) == FormatNumber(x) <==> NoToken(Strip(RemoveAll(x)))
  {
    var core := Strip(RemoveAll(x));
    RemoveAllRepeat(1, core);
    assert Repeat(1) + core == FormatNumber(x);
    if NoToken(core) {
      RemoveAllNoToken(core);
      StripStripped(core);
    } else {
      var i: nat :| i <= |core| && TokenAt(core, i);
      RemoveAllShrinks(core, i);
      assert |FormatNumber(FormatNumber(x))| < |FormatNumber(x)|;
    }
  }

  /** Where some character of the token does not match, no token starts there. */
  lemma NoTokenAt(s: string, i: nat, j: nat)
    requires j < |Prefix| && i + j < |s| && s[i + j] != Prefix[j]
    ensures !TokenAt(s, i)
  {
  }

  /** The first pass over the witness below: deleting the inner token lets "whats" and
      "app:1" meet and form a fresh token. */
  lemma RemoveAllJoins(x: string)
    requires x == "whats" + Prefix + "app:1"
    ensures RemoveAll(x) == Prefix + "1"
  {
    var rest := Prefix + "app:1";
    assert x == "w" + ("hats" + rest);
    NoTokenAt(x, 0, 5);
    assert x[1..] == "hats" + rest;
    RemoveAllPassesLeft("hats", rest);
    RemoveAllRepeat(1, "app:1");
    assert Repeat(1) + "app:1" == rest;
  }

  /** The witness that `format_number` is not idempotent in general: the input
      "whatswhatsapp:app:1" normalises to "whatsapp:whatsapp:1", which normalises in turn
      to "whatsapp:1". */
  lemma FormatNumberNotIdempotent(x: string)
    requires x == "whats" + Prefix + "app:1"
    ensures FormatNumber(x) == Prefix + Prefix + "1"
    ensures FormatNumber(FormatNumber(x)) == Prefix + "1"
  {
    RemoveAllJoins(x);
    StripStripped(Prefix + "1");
    RemoveAllRepeat(2, "1");
    assert Repeat(2) + "1" == Prefix + Prefix + "1";
    StripStripped("1");
  }
}

=== FILE: app.dfy ===
/**
 * The module-level script variant of the bot: the same steps written inline at the top
 * level, with `PHONE_NUMBER`, `MS_NUMBER` and `last_sid` as globals reassigned in place.
 * Its steps are shown to compute exactly what the shared specifications say. The Flask
 * liveness route and its thread are not part of this model.
 */
module App {
  import opened Options
  import opened Address
  import opened Conversations
  import opened Provisioning
  import opened Polling

  /** The four reassignments that normalise both numbers in place: delete every token and
      strip, then prefix one token. The result is `format_number` of each raw value. */
  method NormalizeNumbers(phoneEnv: string, msEnv: string) returns (phoneNumber: string, msNumber: string)
    ensures phoneNumber == FormatNumber(phoneEnv) && msNumber == FormatNumber(msEnv)
    ensures StartsWithToken(phoneNumber) && StartsWithToken(msNumber)
  {
    phoneNumber, msNumber := phoneEnv, msEnv;
    phoneNumber := Strip(RemoveAll(phoneNumber));
    msNumber := Strip(RemoveAll(msNumber));
    phoneNumber := Prefix + phoneNumber;
    msNumber := Prefix + msNumber;
  }

  /** Reuse the first conversation labelled "Friendly Conversation" or create one, then add
      the user's participant (bound through `msNumber`) unless one already has that
      address. */
  method Provision(service: Service, phoneNumber: string, msNumber: string)
    returns (conversation: Conversation)
    modifies service, service.conversations
    ensures conversation.friendlyName == FriendlyName
    ensures var k := FirstMatch(old(service.conversations), FriendlyName);
      k.Some? ==>
        conversation == old(service.conversations)[k.value]
        && service.conversations == old(service.conversations)
        && conversation.participants
           == WithParticipant(old(service.conversations[k.value].participants), phoneNumber, msNumber)
        && conversation.messages == old(service.conversations[k.value].messages)
    ensures FirstMatch(old(service.conversations), FriendlyName).None? ==>
      fresh(conversation)
      && service.conversations == old(service.conversations) + [conversation]
      && conversation.participants == [Participant(Binding(phoneNumber, msNumber))]
      && conversation.messages == []
    ensures forall c :: c in old(service.conversations) && c != conversation ==> unchanged(c)
  {
    var existingConversations := service.conversations;
    var found := FirstMatch(existingConversations, FriendlyName);
    if found.Some? {
      conversation := existingConversations[found.value];
    } else {
      conversation := service.CreateConversation(FriendlyName);
    }
    var participants := conversation.participants;
    var alreadyAdded := HasParticipant(participants, phoneNumber);
    if !alreadyAdded {
      conversation.CreateParticipant(phoneNumber, msNumber);
    }
  }

  /** One pass of the script's `while True` body over the global cursor `lastSid`. */
  method LoopBody(conversation: Conversation, phoneNumber: string, lastSid: Option<string>,
                  replySid: string)
    returns (newLastSid: Option<string>)
    modifies conversation
    ensures PollState(newLastSid, conversation.messages)
         == Step(PollState(lastSid, old(conversation.messages)), phoneNumber, replySid)
    ensures conversation.participants == old(conversation.participants)
  {
    newLastSid := lastSid;
    var messages := conversation.messages;
    if |messages| > 0 {
      var lastMsg := messages[|messages| - 1];
      if Some(lastMsg.sid) != newLastSid && lastMsg.author == phoneNumber {
        conversation.CreateMessage(replySid, SystemAuthor, ReplyBody);
        newLastSid := Some(lastMsg.sid);
      }
    }
  }
}

=== FILE: bot.dfy ===
/**
 * `main` of the polling bot: normalise both numbers, find or create the conversation,
 * make sure the user takes part in it, and enter the polling loop with the user's
 * normalised number. Reading the environment, building the API client and the one-off
 * initial message are not part of this model.
 */
module Bot {
  import opened Options
  import opened Address
  import opened Conversations
  import opened Provisioning
  import opened Polling

  /** Everything `main` does before the first poll; the result is the loop, ready to run
      with its cursor at None. */
  method Start(service: Service, phoneEnv: string, msEnv: string) returns (poller: Poller)
    modifies service, service.conversations
    ensures fresh(poller) && poller.lastSid == None
    ensures poller.userNumber == FormatNumber(phoneEnv) && StartsWithToken(poller.userNumber)
    ensures poller.conversation.friendlyName == FriendlyName
    ensures var k := FirstMatch(old(service.conversations), FriendlyName);
      k.Some? ==>
        poller.conversation == old(service.conversations)[k.value]
        && service.conversations == old(service.conversations)
        && poller.conversation.participants
           == WithParticipant(old(service.conversations[k.value].participants),
                              FormatNumber(phoneEnv), FormatNumber(msEnv))
        && poller.conversation.messages == old(service.conversations[k.value].messages)
    ensures FirstMatch(old(service.conversations), FriendlyName).None? ==>
      fresh(poller.conversation)
      && service.conversations == old(service.conversations) + [poller.conversation]
      && poller.conversation.participants
         == [Participant(Binding(FormatNumber(phoneEnv), FormatNumber(msEnv)))]
      && poller.conversation.messages == []
    ensures HasParticipant(poller.conversation.participants, FormatNumber(phoneEnv))
    ensures forall c :: c in old(service.conversations) && c != poller.conversation ==> unchanged(c)
  {
    var phoneNumber := FormatNumber(phoneEnv);
    var msNumber := FormatNumber(msEnv);
    var conversation := GetOrCreateConversation(service);
    EnsureParticipant(conversation, phoneNumber, msNumber);
    poller := new Poller(conversation, phoneNumber);
  }

  /** The composition the bot relies on: the user number is a normalised address, so it is
      never "system", and a newest message written by the bot is never answered. */
  lemma NeverAnswersItself(phoneEnv: string, s: PollState, replySid: string)
    requires |s.messages| > 0 && Last(s.messages).author == SystemAuthor
    ensures Step(s, FormatNumber(phoneEnv), replySid) == s
  {
    NoAnswerToOwnReply(s, FormatNumber(phoneEnv), replySid);
  }
}

=== FILE: conversations.dfy ===
/**
 * An in-memory stand-in for the provider's Conversations service. Every remote collection
 * the bot lists is a sequence field here, read whole (no pagination), and every remote
 * `create` call is an append to that sequence.
 */
module Conversations {

  /** A participant's `messaging_binding`: the user's address and the provider-side number
      that sends on their behalf. */
  datatype Binding = Binding(address: string, proxyAddress: string)

  datatype Participant = Participant(messagingBinding: Binding)

  /** A message record; `sid` is the identifier the provider assigns. */
  datatype Message = Message(sid: string, author: string, body: string)

  /** A remote conversation: a label fixed at creation, its participants and its messages,
      oldest message first. */
  class Conversation {
    const friendlyName: string
    var participants: seq<Participant>
    var messages: seq<Message>

    /** `service.conversations.create(friendly_name=...)` on the provider side. */
    constructor (friendlyName: string)
      ensures this.friendlyName == friendlyName
      ensures participants == [] && messages == []
    {
      this.friendlyName := friendlyName;
      participants := [];
      messages := [];
    }

    /** `conversation.participants.create(messaging_binding_address=...,
        messaging_binding_proxy_address=...)`. */
    method CreateParticipant(address: string, proxyAddress: string)
      modifies this
      ensures participants == old(participants) + [Participant(Binding(address, proxyAddress))]
      ensures messages == old(messages)
    {
      participants := participants + [Participant(Binding(address, proxyAddress))];
    }

    /** `conversation.messages.create(author=..., body=...)`; the provider picks `sid`. */
    method CreateMessage(sid: string, author: string, body: string)
      modifies this
      ensures messages == old(messages) + [Message(sid, author, body)]
      ensures participants == old(participants)
    {
      messages := messages + [Message(sid, author, body)];
    }

    /** Messages written by the other party (the user's phone) between two polls. */
    method Receive(incoming: seq<Message>)
      modifies this
      ensures messages == old(messages) + incoming
      ensures participants == old(participants)
    {
      messages := messages + incoming;
    }
  }

  /** A messaging-service instance: the list of its conversations, in provider order. */
  class Service {
    var conversations: seq<Conversation>

    constructor (conversations: seq<Conversation>)
      ensures this.conversations == conversations
    {
      this.conversations := conversations;
    }

    /** `service.conversations.create(friendly_name=friendlyName)`. */
    method CreateConversation(friendlyName: string) returns (c: Conversation)
      modifies this
      ensures fresh(c)
      ensures c.friendlyName == friendlyName && c.participants == [] && c.messages == []
      ensures conversations == old(conversations) + [c]
    {
      c := new Conversation(friendlyName);
      conversations := conversations + [c];
    }
  }
}

=== FILE: options.dfy ===
/** An optional value, standing for Python's `None` where the source uses it. */
module Options {

  datatype Option<T> = None | Some(value: T)

}

=== FILE: polling.dfy ===
/**
 * `poll_messages`: the cursor `last_sid` and the conversation's message list, advanced one
 * tick at a time. A tick looks only at the newest message and answers it when its sid is
 * not the cursor and the user wrote it; answering appends one "system" message and moves
 * the cursor to the answered sid.
 */
module Polling {
  import opened Options
  import opened Address
  import opened Conversations

  /** The author the bot writes its replies as. */
  const SystemAuthor: string := "system"

  /** The fixed reply body. */
  const ReplyBody: string := "\U{2705} Message received. I am the server."

  /** The two variables a tick reads and writes: the cursor (None before the first reply)
      and the conversation's message list. */
  datatype PollState = PollState(lastSid: Option<string>, messages: seq<Message>)

  function Last(messages: seq<Message>): (m: Message)
    requires |messages| > 0
  {
    messages[|messages| - 1]
  }

  /** The tick's guard: a newest message exists, its sid is not the cursor (a sid is never
      equal to None), and its author is the user. With a normalised user address the guard
      never holds for one of the bot's own replies. */
  function Answers(s: PollState, user: string): (r: bool)
    ensures r && StartsWithToken(user) ==> |s.messages| > 0 && !IsReply(Last(s.messages))
  {
    |s.messages| > 0 && Some(Last(s.messages).sid) != s.lastSid && Last(s.messages).author == user
  }

  function Reply(sid: string): (m: Message)
  {
    Message(sid, SystemAuthor, ReplyBody)
  }

  /** A message the bot wrote: its author and body. */
  predicate IsReply(m: Message)
  {
    m.author == SystemAuthor && m.body == ReplyBody
  }

  /** One tick; `replySid` is the identifier the provider gives the reply if one is sent. */
  function Step(s: PollState, user: string, replySid: string): (r: PollState)
    ensures |s.messages| == 0 ==> r == s
    ensures r != s <==> Answers(s, user)
    ensures r.messages == s.messages || r.messages == s.messages + [Reply(replySid)]
    ensures r.lastSid != s.lastSid ==> r.messages == s.messages + [Reply(replySid)]
    ensures r != s ==> r.lastSid == Some(Last(s.messages).sid) && Last(s.messages).author == user
  {
    if Answers(s, user) then
      PollState(Some(Last(s.messages).sid), s.messages + [Reply(replySid)])
    else s
  }

  /** A user address produced by `format_number` is never the bot's own author name. */
  lemma UserIsNotSystem(user: string)
    requires StartsWithToken(user)
    ensures user != SystemAuthor
  {
    assert |user| >= |Prefix| > |SystemAuthor|;
  }

  /** Seeing the same list twice answers at most once: with the cursor the first tick
      leaves, the second tick over the same list does nothing. */
  lemma SameListTwiceAnswersOnce(lastSid: Option<string>, messages: seq<Message>, user: string,
                                 sid1: string, sid2: string)
    ensures var cursor := Step(PollState(lastSid, messages), user, sid1).lastSid;
      Step(PollState(cursor, messages), user, sid2) == PollState(cursor, messages)
  {
  }

  /** The bot never answers itself: when the newest message is its own reply and the user
      address carries the channel token, the tick does nothing. */
  lemma NoAnswerToOwnReply(s: PollState, user: string, replySid: string)
    requires |s.messages| > 0 && Last(s.messages).author == SystemAuthor
    requires StartsWithToken(user)
    ensures Step(s, user, replySid) == s
  {
    UserIsNotSystem(user);
  }

  /** So the tick right after an answer is idle. */
  lemma IdleAfterAnswer(s: PollState, user: string, sid1: string, sid2: string)
    requires StartsWithToken(user)
    requires Answers(s, user)
    ensures var s1 := Step(s, user, sid1);
      Step(s1, user, sid2) == s1
  {
    NoAnswerToOwnReply(Step(s, user, sid1), user, sid2);
  }

  /** Only the newest message is examined: whatever precedes it, unanswered user messages
      included, the outcome is the same. */
  lemma OnlyNewestMatters(lastSid: Option<string>, older1: seq<Message>, older2: seq<Message>,
                          newest: Message, user: string)
    ensures Answers(PollState(lastSid, older1 + [newest]), user)
        <==> Answers(PollState(lastSid, older2 + [newest]), user)
  {
  }

  /** A user message behind a newer message by anyone else is never answered. */
  lemma BuriedMessageUnanswered(lastSid: Option<string>, older: seq<Message>, newest: Message,
                                user: string, replySid: string)
    requires newest.author != user
    ensures var s := PollState(lastSid, older + [newest]);
      Step(s, user, replySid) == s
  {
  }

  // ---------------------------------------------------------------------------------------
  // A bounded run of the polling loop

  /** `ticks` iterations of the loop: before tick i the user's phone adds `arrivals[i]` to
      the conversation; the tick's reply, if any, gets identifier `replySids[i]`.
      The conversation only grows: the bot and the user only append, so the starting list
      is a prefix of the final one. */
  function Run(s: PollState, user: string, arrivals: seq<seq<Message>>, replySids: seq<string>)
    : (r: PollState)
    requires |arrivals| == |replySids|
    ensures |s.messages| <= |r.messages| && r.messages[..|s.messages|] == s.messages
    decreases |arrivals|
  {
    if |arrivals| == 0 then s
    else
      var s1 := Step(PollState(s.lastSid, s.messages + arrivals[0]), user, replySids[0]);
      var r := Run(s1, user, arrivals[1..], replySids[1..]);
      assert s1.messages[..|s.messages|] == s.messages;
      assert r.messages[..|s.messages|] == r.messages[..|s1.messages|][..|s.messages|];
      r
  }

  /** Positions, in the final message list, of the messages the run answered, in order;
      a tick answers at most once. */
  function Answered(s: PollState, user: string, arrivals: seq<seq<Message>>,
                    replySids: seq<string>): (a: seq<nat>)
    requires |arrivals| == |replySids|
    ensures |a| <= |arrivals|
    decreases |arrivals|
  {
    if |arrivals| == 0 then []
    else
      var seen := PollState(s.lastSid, s.messages + arrivals[0]);
      var s1 := Step(seen, user, replySids[0]);
      (if Answers(seen, user) then [|seen.messages| - 1] else [])
      + Answered(s1, user, arrivals[1..], replySids[1..])
  }

  /** The number of messages the user sends over the whole run. */
  function Total(arrivals: seq<seq<Message>>): (n: nat)
  {
    if |arrivals| == 0 then 0 else |arrivals[0]| + Total(arrivals[1..])
  }

  /** The final list is as long as the starting list plus every message the user sent plus
      one reply per answered position: with `|Answered(..)| <= |arrivals|`, a run appends at
      most one reply per tick. */
  lemma {:induction false} RunLength(s: PollState, user: string, arrivals: seq<seq<Message>>,
                                     replySids: seq<string>)
    requires |arrivals| == |replySids|
    ensures |Run(s, user, arrivals, replySids).messages|
         == |s.messages| + Total(arrivals) + |Answered(s, user, arrivals, replySids)|
    decreases |arrivals|
  {
    if |arrivals| > 0 {
      var s1 := Step(PollState(s.lastSid, s.messages + arrivals[0]), user, replySids[0]);
      RunLength(s1, user, arrivals[1..], replySids[1..]);
    }
  }

  /** Every message the user sends during the run is in the final list: the bot only
      appends, and never drops or rewrites what arrived. */
  lemma {:induction false} RunKeepsArrivals(s: PollState, user: string, arrivals: seq<seq<Message>>,
                                            replySids: seq<string>)
    requires |arrivals| == |replySids|
    ensures forall i, m :: 0 <= i < |arrivals| && m in arrivals[i] ==>
      m in Run(s, user, arrivals, replySids).messages
    decreases |arrivals|
  {
    if |arrivals| > 0 {
      var s1 := Step(PollState(s.lastSid, s.messages + arrivals[0]), user, replySids[0]);
      var r := Run(s1, user, arrivals[1..], replySids[1..]);
      RunKeepsArrivals(s1, user, arrivals[1..], replySids[1..]);
      assert Run(s, user, arrivals, replySids) == r;
      forall i, m | 0 <= i < |arrivals| && m in arrivals[i]
        ensures m in r.messages
      {
        if i == 0 {
          assert m in s1.messages;
          assert r.messages[..|s1.messages|] == s1.messages;
        } else {
          assert arrivals[1..][i - 1] == arrivals[i];
        }
      }
    }
  }

  predicate Increasing(a: seq<nat>)
  {
    forall j, k :: 0 <= j < k < |a| ==> a[j] < a[k]
  }

  /** Every position in `a` lies in `[lo, hi)`. */
  predicate Within(a: seq<nat>, lo: int, hi: int)
  {
    forall k :: 0 <= k < |a| ==> lo <= a[k] < hi
  }

  /** Every position in `a` holds a message of `user` directly followed by a bot reply. */
  predicate AnsweredAt(messages: seq<Message>, a: seq<nat>, user: string)
  {
    forall k :: 0 <= k < |a| ==>
      a[k] + 1 < |messages| && messages[a[k]].author == user && IsReply(messages[a[k] + 1])
  }

  lemma WithinWeaken(a: seq<nat>, lo: int, lo': int, hi: int)
    requires Within(a, lo', hi) && lo <= lo'
    ensures Within(a, lo, hi)
  {
  }

  lemma PositionsCons(p: nat, rest: seq<nat>, lo: int, hi: int)
    requires Increasing(rest) && Within(rest, p + 1, hi)
    requires lo <= p < hi
    ensures Increasing([p] + rest) && Within([p] + rest, lo, hi)
  {
    var a := [p] + rest;
    assert forall k :: 0 < k < |a| ==> a[k] == rest[k - 1];
  }

  lemma AnsweredAtCons(messages: seq<Message>, p: nat, rest: seq<nat>, user: string)
    requires AnsweredAt(messages, rest, user)
    requires p + 1 < |messages| && messages[p].author == user && IsReply(messages[p + 1])
    ensures AnsweredAt(messages, [p] + rest, user)
  {
    var a := [p] + rest;
    assert forall k :: 0 < k < |a| ==> a[k] == rest[k - 1];
  }

  /** Over any bounded run the answered positions lie at or after the newest message of
      the list the run started from, each is followed by another message, and they
      strictly increase: no message is answered twice. */
  lemma {:induction false} RunAnsweredPositions(s: PollState, user: string,
                                               arrivals: seq<seq<Message>>,
                                               replySids: seq<string>)
    requires |arrivals| == |replySids|
    ensures var a := Answered(s, user, arrivals, replySids);
      Increasing(a) && Within(a, |s.messages| - 1, |Run(s, user, arrivals, replySids).messages| - 1)
    decreases |arrivals|
  {
    if |arrivals| > 0 {
      var seen := PollState(s.lastSid, s.messages + arrivals[0]);
      var s1 := Step(seen, user, replySids[0]);
      var r := Run(s1, user, arrivals[1..], replySids[1..]);
      var rest := Answered(s1, user, arrivals[1..], replySids[1..]);
      RunAnsweredPositions(s1, user, arrivals[1..], replySids[1..]);
      assert Run(s, user, arrivals, replySids) == r;
      if Answers(seen, user) {
        var p := |seen.messages| - 1;
        assert Answered(s, user, arrivals, replySids) == [p] + rest;
        assert |s1.messages| == p + 2;
        PositionsCons(p, rest, |s.messages| - 1, |r.messages| - 1);
      } else {
        assert Answered(s, user, arrivals, replySids) == rest;
        assert s1 == seen;
        WithinWeaken(rest, |s.messages| - 1, |s1.messages| - 1, |r.messages| - 1);
      }
    }
  }

  /** Over any bounded run every answered position holds a message of the user, and the
      message right after it is a reply of the bot. */
  lemma {:induction false} RunAnswersUserWithReply(s: PollState, user: string,
                                                  arrivals: seq<seq<Message>>,
                                                  replySids: seq<string>)
    requires |arrivals| == |replySids|
    ensures AnsweredAt(Run(s, user, arrivals, replySids).messages,
                       Answered(s, user, arrivals, replySids), user)
    decreases |arrivals|
  {
    if |arrivals| > 0 {
      var seen := PollState(s.lastSid, s.messages + arrivals[0]);
      var s1 := Step(seen, user, replySids[0]);
      var r := Run(s1, user, arrivals[1..], replySids[1..]);
      var rest := Answered(s1, user, arrivals[1..], replySids[1..]);
      RunAnswersUserWithReply(s1, user, arrivals[1..], replySids[1..]);
      assert Run(s, user, arrivals, replySids) == r;
      if Answers(seen, user) {
        var p := |seen.messages| - 1;
        assert Answered(s, user, arrivals, replySids) == [p] + rest;
        assert s1.messages == seen.messages + [Reply(replySids[0])];
        assert r.messages[p] == r.messages[..|s1.messages|][p] == s1.messages[p];
        assert r.messages[p + 1] == r.messages[..|s1.messages|][p + 1] == s1.messages[p + 1];
        AnsweredAtCons(r.messages, p, rest, user);
      } else {
        assert Answered(s, user, arrivals, replySids) == rest;
      }
    }
  }

  /** The sids of the messages the run answered, in order. */
  function AnsweredSids(s: PollState, user: string, arrivals: seq<seq<Message>>,
                        replySids: seq<string>): (sids: seq<string>)
    requires |arrivals| == |replySids|
    ensures |sids| == |Answered(s, user, arrivals, replySids)|
    decreases |arrivals|
  {
    if |arrivals| == 0 then []
    else
      var seen := PollState(s.lastSid, s.messages + arrivals[0]);
      var s1 := Step(seen, user, replySids[0]);
      (if Answers(seen, user) then [Last(seen.messages).sid] else [])
      + AnsweredSids(s1, user, arrivals[1..], replySids[1..])
  }

  /** What the cursor buys over a bounded run: the first answered sid is not the cursor the
      run started with, no two consecutive answers are to the same sid, and the cursor the
      run leaves is the sid answered last (or the starting cursor when nothing was answered). */
  lemma {:induction false} RunAnswersNewSids(s: PollState, user: string,
                                            arrivals: seq<seq<Message>>,
                                            replySids: seq<string>)
    requires |arrivals| == |replySids|
    ensures var sids := AnsweredSids(s, user, arrivals, replySids);
      (|sids| > 0 ==> Some(sids[0]) != s.lastSid)
      && (forall k :: 0 <= k < |sids| - 1 ==> sids[k] != sids[k + 1])
      && Run(s, user, arrivals, replySids).lastSid
         == (if |sids| == 0 then s.lastSid else Some(sids[|sids| - 1]))
    decreases |arrivals|
  {
    if |arrivals| > 0 {
      var seen := PollState(s.lastSid, s.messages + arrivals[0]);
      var s1 := Step(seen, user, replySids[0]);
      var rest := AnsweredSids(s1, user, arrivals[1..], replySids[1..]);
      RunAnswersNewSids(s1, user, arrivals[1..], replySids[1..]);
      assert Run(s, user, arrivals, replySids) == Run(s1, user, arrivals[1..], replySids[1..]);
      if Answers(seen, user) {
        var x := Last(seen.messages).sid;
        var sids := [x] + rest;
        assert AnsweredSids(s, user, arrivals, replySids) == sids;
        assert s1.lastSid == Some(x);
        assert forall k :: 0 < k < |sids| ==> sids[k] == rest[k - 1];
      } else {
        assert AnsweredSids(s, user, arrivals, replySids) == rest;
        assert s1 == seen;
      }
    }
  }

  /** Position `a[k]` of `messages` holds a message with sid `sids[k]`, for every k. */
  predicate SidsAt(messages: seq<Message>, a: seq<nat>, sids: seq<string>)
  {
    |a| == |sids|
    && forall k :: 0 <= k < |a| ==> a[k] < |messages| && messages[a[k]].sid == sids[k]
  }

  /** The sids `AnsweredSids` lists are those of the messages at the answered positions of
      the final list. */
  lemma {:induction false} RunAnsweredSidsAt(s: PollState, user: string,
                                            arrivals: seq<seq<Message>>,
                                            replySids: seq<string>)
    requires |arrivals| == |replySids|
    ensures SidsAt(Run(s, user, arrivals, replySids).messages,
                   Answered(s, user, arrivals, replySids),
                   AnsweredSids(s, user, arrivals, replySids))
    decreases |arrivals|
  {
    if |arrivals| > 0 {
      var seen := PollState(s.lastSid, s.messages + arrivals[0]);
      var s1 := Step(seen, user, replySids[0]);
      var r := Run(s1, user, arrivals[1..], replySids[1..]);
      var rest := Answered(s1, user, arrivals[1..], replySids[1..]);
      var restSids := AnsweredSids(s1, user, arrivals[1..], replySids[1..]);
      RunAnsweredSidsAt(s1, user, arrivals[1..], replySids[1..]);
      assert Run(s, user, arrivals, replySids) == r;
      if Answers(seen, user) {
        var p := |seen.messages| - 1;
        var a := [p] + rest;
        var sids := [Last(seen.messages).sid] + restSids;
        assert Answered(s, user, arrivals, replySids) == a;
        assert AnsweredSids(s, user, arrivals, replySids) == sids;
        assert r.messages[p] == r.messages[..|s1.messages|][p] == s1.messages[p];
        assert forall k :: 0 < k < |a| ==> a[k] == rest[k - 1] && sids[k] == restSids[k - 1];
      } else {
        assert Answered(s, user, arrivals, replySids) == rest;
        assert AnsweredSids(s, user, arrivals, replySids) == restSids;
      }
    }
  }

  /** A tick as the remote service can interleave it: `late` reaches the conversation after
      the tick's `list()` and before its reply is created. The decision is taken on the list
      seen; the reply lands after the late messages. */
  function StepWithLate(s: PollState, user: string, late: seq<Message>, replySid: string)
    : (r: PollState)
    ensures Answers(s, user) ==> r.messages == s.messages + late + [Reply(replySid)]
    ensures !Answers(s, user) ==> r.messages == s.messages + late
    ensures r.lastSid == Step(s, user, replySid).lastSid
    ensures late == [] ==> r == Step(s, user, replySid)
  {
    if Answers(s, user) then
      PollState(Some(Last(s.messages).sid), s.messages + late + [Reply(replySid)])
    else PollState(s.lastSid, s.messages + late)
  }

  /** A user message that arrives while a tick is between its `list()` and its reply is
      never answered: the reply becomes the newest message, so every later tick over that
      list is idle, and the late message stays unanswered until the user writes again. */
  lemma LateMessageLost(s: PollState, user: string, m2: Message, sid1: string, sid2: string)
    requires StartsWithToken(user)
    requires Answers(s, user) && m2.author == user
    ensures var s1 := StepWithLate(s, user, [m2], sid1);
      s1.messages[|s1.messages| - 2] == m2
      && Step(s1, user, sid2) == s1
  {
    var s1 := StepWithLate(s, user, [m2], sid1);
    assert s1.messages == s.messages + [m2] + [Reply(sid1)];
    NoAnswerToOwnReply(s1, user, sid2);
  }

  /** The end-to-end scenario: an empty conversation; the user's message m1 ("hi") arrives
      and the bot answers it; the next tick, over the list that now ends with the reply,
      does nothing. */
  lemma ScenarioAnswerOnce(user: string, m1: Message, sid1: string, sid2: string)
    requires StartsWithToken(user)
    requires m1 == Message("m1", user, "hi")
    ensures Run(PollState(None, []), user, [[m1], []], [sid1, sid2])
         == PollState(Some("m1"), [m1, Reply(sid1)])
  {
    var arrivals: seq<seq<Message>> := [[m1], []];
    var sids := [sid1, sid2];
    var s1 := Step(PollState(None, [] + [m1]), user, sid1);
    assert s1 == PollState(Some("m1"), [m1, Reply(sid1)]);
    assert Run(PollState(None, []), user, arrivals, sids) == Run(s1, user, arrivals[1..], sids[1..]);
    assert arrivals[1..] == [[]] && sids[1..] == [sid2];
    assert s1.messages + [] == s1.messages;
    NoAnswerToOwnReply(s1, user, sid2);
    var s2 := Step(PollState(s1.lastSid, s1.messages + []), user, sid2);
    assert s2 == s1;
    assert Run(s1, user, [[]], [sid2]) == Run(s2, user, [], []);
  }

  // ---------------------------------------------------------------------------------------
  // The loop itself

  /** One run of `poll_messages(conversation, user_number)`: the cursor lives here and the
      messages in the conversation. */
  class Poller {
    const conversation: Conversation
    const userNumber: string
    var lastSid: Option<string>

    ghost function State(): PollState
      reads this, conversation
    {
      PollState(lastSid, conversation.messages)
    }

    /** Entering `poll_messages`: the cursor starts at None. */
    constructor (conversation: Conversation, userNumber: string)
      ensures this.conversation == conversation && this.userNumber == userNumber
      ensures lastSid == None
    {
      this.conversation := conversation;
      this.userNumber := userNumber;
      lastSid := None;
    }

    /** One pass of the loop body: fetch the messages, look at the newest, answer it if
        the user wrote it and it is not the one answered last. */
    method Tick(replySid: string)
      modifies this, conversation
      ensures State() == Step(old(State()), userNumber, replySid)
      ensures conversation.participants == old(conversation.participants)
    {
      var messages := conversation.messages;
      if |messages| > 0 {
        var lastMsg := messages[|messages| - 1];
        if Some(lastMsg.sid) != lastSid && lastMsg.author == userNumber {
          conversation.CreateMessage(replySid, SystemAuthor, ReplyBody);
          lastSid := Some(lastMsg.sid);
        }
      }
    }

    /** `|arrivals|` passes of the loop; before each one the user's phone may add
        messages to the conversation. */
    method Poll(arrivals: seq<seq<Message>>, replySids: seq<string>)
      requires |arrivals| == |replySids|
      modifies this, conversation
      ensures State() == Run(old(State()), userNumber, arrivals, replySids)
      ensures conversation.participants == old(conversation.participants)
    {
      var i := 0;
      while i < |arrivals|
        invariant 0 <= i <= |arrivals|
        invariant Run(old(State()), userNumber, arrivals, replySids)
               == Run(State(), userNumber, arrivals[i..], replySids[i..])
        invariant conversation.participants == old(conversation.participants)
      {
        conversation.Receive(arrivals[i]);
        Tick(replySids[i]);
        assert arrivals[i..][1..] == arrivals[i + 1..];
        assert replySids[i..][1..] == replySids[i + 1..];
        i := i + 1;
      }
    }
  }
}

=== FILE: provisioning.dfy ===
/**
 * Setting up the conversation: `get_or_create_conversation` and `ensure_participant`.
 * The lookups the source writes as `next(...)` and `any(...)` comprehensions are the pure
 * functions FirstMatch and HasParticipant; the two operations that may call `create` are
 * methods that append to the in-memory service.
 */
module Provisioning {
  import opened Options
  import opened Conversations

  /** The label of the conversation the bot reuses or creates. */
  const FriendlyName: string := "Friendly Conversation"

  /** `next((c for c in convs if c.friendly_name == name), None)`, as an index into `convs`:
      the first conversation with that label, or None when there is none. */
  function FirstMatch(convs: seq<Conversation>, name: string): (r: Option<nat>)
    ensures r.Some? ==> r.value < |convs| && convs[r.value].friendlyName == name
    ensures r.Some? ==> forall j :: 0 <= j < r.value ==> convs[j].friendlyName != name
    ensures r.None? <==> forall j :: 0 <= j < |convs| ==> convs[j].friendlyName != name
  {
    if |convs| == 0 then None
    else if convs[0].friendlyName == name then Some(0)
    else match FirstMatch(convs[1..], name)
      case None => None
      case Some(k) => Some(k + 1)
  }

  /** `any(p.messaging_binding['address'] == address for p in participants)`, scanning from
      the front and stopping at the first hit: true exactly when some participant is bound
      to the address. */
  function HasParticipant(participants: seq<Participant>, address: string): (r: bool)
    ensures r <==> exists i :: 0 <= i < |participants| && participants[i].messagingBinding.address == address
  {
    |participants| > 0
    && (participants[0].messagingBinding.address == address
        || HasParticipant(participants[1..], address))
  }

  /** The participant list after `ensure_participant(conversation, address, proxy)`. */
  function WithParticipant(participants: seq<Participant>, address: string, proxy: string)
    : (r: seq<Participant>)
    ensures HasParticipant(r, address)
    ensures |r| == if HasParticipant(participants, address) then |participants| else |participants| + 1
    ensures r[..|participants|] == participants
    ensures |r| > |participants| ==> r[|participants|] == Participant(Binding(address, proxy))
  {
    if HasParticipant(participants, address) then participants
    else
      var r := participants + [Participant(Binding(address, proxy))];
      assert r[|participants|].messagingBinding.address == address;
      r
  }

  /** Ensuring the same address twice creates at most one participant: the second call
      finds the first one's participant, whatever proxy it is given. */
  lemma EnsureParticipantTwice(ps: seq<Participant>, address: string, proxy: string, proxy2: string)
    ensures WithParticipant(WithParticipant(ps, address, proxy), address, proxy2)
         == WithParticipant(ps, address, proxy)
    ensures |WithParticipant(WithParticipant(ps, address, proxy), address, proxy2)| <= |ps| + 1
  {
  }

  /** `get_or_create_conversation(service)`: reuse the first conversation labelled
      FriendlyName, with no create; otherwise create exactly one and return it. */
  method GetOrCreateConversation(service: Service) returns (convo: Conversation)
    modifies service
    ensures var k := FirstMatch(old(service.conversations), FriendlyName);
      k.Some? ==>
        convo == old(service.conversations)[k.value]
        && service.conversations == old(service.conversations)
    ensures FirstMatch(old(service.conversations), FriendlyName).None? ==>
      fresh(convo) && convo.friendlyName == FriendlyName
      && convo.participants == [] && convo.messages == []
      && service.conversations == old(service.conversations) + [convo]
    ensures convo.friendlyName == FriendlyName
  {
    var conversations := service.conversations;
    var found := FirstMatch(conversations, FriendlyName);
    if found.Some? {
      convo := conversations[found.value];
    } else {
      convo := service.CreateConversation(FriendlyName);
    }
  }

  /** `ensure_participant(conversation, phone_number, proxy_number)`: add a participant
      bound to `phoneNumber` through `proxyNumber` exactly when none is bound to it yet. */
  method EnsureParticipant(conversation: Conversation, phoneNumber: string, proxyNumber: string)
    modifies conversation
    ensures conversation.participants
         == WithParticipant(old(conversation.participants), phoneNumber, proxyNumber)
    ensures conversation.messages == old(conversation.messages)
  {
    var participants := conversation.participants;
    var alreadyExists := HasParticipant(participants, phoneNumber);
    if !alreadyExists {
      conversation.CreateParticipant(phoneNumber, proxyNumber);
    }
  }
}
